=== FILE: README.md ===
# gen: migration file naming, modelled in Dafny

`gen` creates the next SQL migration file of a project. It is invoked as
`gen <operation> --name N [--column C] [--schema S]`. It then:

1. checks that a column operation was given a column;
2. walks up from the working directory to the nearest directory holding a
   `.gen_root` marker file;
3. scans every `*.sql` file under that root for names of the form
   `YYYYMMDDNN...`;
4. keeps the entry with the latest date and compares that date with today;
5. names the new file `YYYYMMDDNN - <phrase>.sql`, with today's date and the
   next index of the day;
6. writes the new file into the working directory, filled with a template
   for three of the seven operations.

The model is the decision core beneath that I/O shell. It is written as pure
functions over strings, sequences of file names and date triples:

- `wrappers.dfy`: `Option` and `Result`.
- `digits.dfy`: ASCII digit strings. This covers their value (`str::parse`)
  and the `{n:0w}` zero-padded rendering, with the lemmas that connect the
  two.
- `dates.dfy`: calendar dates as chrono's `NaiveDate`. This covers the
  proleptic Gregorian validity check, chronological `cmp`, and formatting and
  parsing with `%Y%m%d`, proved inverse to each other.
- `operations.dfy`: the seven operations, `Args::validate`,
  `Operation::to_file_name` and `Operation::get_template_data`.
- `root.dfy`: `find_root`. A directory is a list of path components, and
  the marker files are given as the set of directories that hold one.
- `scanner.dfy`: `find_last_file_for_current_day`. The recursive glob is the
  list of file names it yields, in order, and the clock is a `today`
  parameter. The three stages are modelled separately:
  - the `filter_map` that accepts names;
  - the `max_by` that keeps one entry;
  - the comparison with today.
- `naming.dfy`: the body of `main`. It derives the next index, composes the
  file name and chains the error cases.

Behaviour the model pins down:

- **Which entry `max_by` keeps.** The scanner compares dates only. Rust's
  `max_by` returns the *last* of several equally large elements, so among
  the files on the latest date the one enumerated last wins, whatever its
  index. `Scanner.IsLastMax` states this, and `Naming.TieKeepsLastEnumerated`
  exhibits its consequence: file 02 of today listed before file 01 makes the
  next name reuse index 02. One might expect ties to keep the largest index
  of the day; the code keeps the last enumerated, and so does the model.
  `Scanner.AscendingIndicesGiveDayMaximum` states the condition under which
  the two coincide: each day's indices appear in ascending order, as when one
  directory is listed in name order and every index has two digits.
- **What `.*$` excludes.** Rust's `.` does not match a line break, so a name
  with a `'\n'` after its first ten characters is ignored.
- **The hundredth file of a day.** Index 100 is rendered with three digits.
  The scanner reads only two of them, so that name reads back as index 10
  (`Naming.ThreeDigitIndexReadsBackTruncated`). What follows depends on the
  enumeration order. In name order, `...100 - y.sql` sorts before
  `...99 - z.sql`, the scan keeps reporting 99, and index 100 is issued again
  (`Naming.HundredthListedFirstRepeats`). `File::create` then truncates the
  existing file when the phrase is also the same. If the file with index 100
  is enumerated last, the next index is 11, which is issued again.
- **Where the new file goes.** It is written into the working directory, not
  the root. It is found on later runs only because the glob is recursive
  under the root. This holds when the phrase contains no `/`; see "Left out".
- **Empty names are accepted.** The code only requires the `--name` flag to
  be present, not a non-empty value, so the model accepts an empty name.

## Model

| member | source | states |
|---|---|---|
| Operations.Validate | src/main.rs:96-106 | validation fails exactly when the operation is add-, alter- or drop-column and no column was given; success guarantees the column that `to_file_name` unwraps |
| Operations.ReplaceSpaces | src/main.rs:34 | the script phrase has the name's length and each character of the name with a space turned into an underscore |
| Operations.ToFileName | src/main.rs:32-41 | the phrase for each of the seven operations is its fixed words around the column and the name, and the script phrase is the name with spaces replaced; the column operations may only be called with a column |
| Operations.ScriptPhrase | src/main.rs:34 | a script phrase keeps every non-space character in place, contains no space, and is unchanged by a second replacement |
| Operations.PhraseDeterminesOperation | src/main.rs:32-41 | the operation can be read back from any phrase, and for table operations so can the name |
| Operations.GetTemplateData | src/main.rs:44-77 | a template is chosen exactly for create-table, add-column and drop-column; the table name is the name, the schema is passed through, the dot separator is "." exactly when a schema is present, and the column is absent for create-table and passed through otherwise |
| Operations.ValidatedTemplateHasColumn | src/main.rs:61-75 | after validation, the add-column and drop-column templates always receive the requested column |
| Root.FindRoot | src/main.rs:150-162 | the result is the working directory or an ancestor that holds the marker, and no directory between it and the working directory does; it fails exactly when no directory up to the filesystem root holds the marker |
| Root.NearestMarkedUnique | src/main.rs:150-162 | only one directory is the nearest marked ancestor |
| Root.FindRootFindsNearest | src/main.rs:150-162 | when several ancestors are marked, the nearest is found and never a more distant one |
| Digits.ZeroPad | src/main.rs:127 | `{n:02}` has at least the requested width, is all digits, reads back as n, and has no leading zero beyond the width |
| Dates.DaysInMonth | src/main.rs:178 | February has 29 days exactly in a Gregorian leap year and 28 otherwise; the other months alternate 31 and 30 from January to July and again from August to December |
| Dates.MonthsMakeYear | src/main.rs:178 | the twelve month lengths add up to 365 days, or 366 in a leap year |
| Dates.Compare | src/main.rs:188-192 | date comparison is equal only on equal dates and agrees with the chronological order and with the numeric order of `YYYYMMDD` |
| Dates.Format | src/main.rs:121 | the `%Y%m%d` rendering of a date is eight ASCII digits |
| Dates.FormatValue | src/main.rs:121 | those eight digits, read as a number, are year times 10000 plus month times 100 plus day |
| Dates.Parse | src/main.rs:176-178 | a date parsed from eight digits is a valid calendar day that renders back to those digits |
| Dates.ParseFormatRoundTrip | src/main.rs:176-178 | parsing gives a date exactly when that date is valid and renders to the parsed text |
| Dates.FormatOrder | src/main.rs:188 | one date is before another exactly when its eight-digit rendering is numerically smaller |
| Scanner.Accept | src/main.rs:165-181 | an accepted name matches `^\d{8}(\d{2}).*$`, its first eight digits are the rendering of a valid date, and its index is below 100 and renders back to the two captured digits |
| Scanner.AcceptsDatedName | src/main.rs:165-181 | every name that matches the pattern and opens with a valid date's rendering is accepted with that date and the captured index |
| Scanner.FilterAcceptedMembers | src/main.rs:168-183 | the entries kept are exactly those of the accepted names |
| Scanner.FilterAcceptedAll | src/main.rs:168-183 | when every name is accepted, all are kept, one per name, in enumeration order |
| Scanner.FilterAcceptedInOrder | src/main.rs:168-183 | whichever names are rejected, the kept entries are those of the accepted names one for one, in the order the names were enumerated, and no accepted name is skipped |
| Scanner.Select | src/main.rs:184 | no entry is kept exactly when there are none; otherwise the kept entry has the latest date and every entry after it is strictly earlier |
| Scanner.LastMaxUnique | src/main.rs:184 | the position `max_by` keeps is unique |
| Scanner.Latest | src/main.rs:186-197 | the scan fails exactly when some entry is dated after today, and the error carries the date of the entry `max_by` kept; it reports nothing exactly when every entry is before today, and otherwise reports the index of the kept entry, dated today |
| Scanner.FindLastFileForCurrentDay | src/main.rs:164-198 | the same three outcomes stated over the enumerated file names; a scan error carries a date after today; a reported index is below 100 and is that of the last enumerated name dated today, every accepted name after it being dated earlier |
| Scanner.ScanErrorIsLatestDate | src/main.rs:184-190 | the date a scan error reports is the latest accepted date: some accepted name carries it and none is dated later |
| Scanner.AscendingIndicesGiveDayMaximum | src/main.rs:184 | when each day's indices ascend in enumeration order, the entry `max_by` keeps has the largest index of its day |
| Naming.NextIndex | src/main.rs:123 | the next index is one past the last one of today, or 1 when today has none |
| Naming.FileName | src/main.rs:127 | the composed name opens with today's `YYYYMMDD`, continues with the index zero-padded to two digits (its plain decimal digits from 100 on), then " - ", the phrase and ".sql" |
| Naming.FileNameRoundTrip | src/main.rs:127 | a composed name with an index below 100 and a phrase without a line break is accepted by the scanner and reads back as (today, index) |
| Naming.ThreeDigitIndexReadsBackTruncated | src/main.rs:127 | a composed name with a three-digit index reads back as that index divided by ten |
| Naming.Generate | src/main.rs:109-139 | the run fails with the validation error, then with a missing root, then, with the scan's error, exactly when a scanned file is dated after today, carrying a date after today; otherwise the file goes into the working directory, its name opens with today's date, and it receives the operation's template data |
| Naming.GenerateIsFresh | src/main.rs:109-139 | under the listing conditions of `NextNameIsFresh` and a name and column without line breaks, the run succeeds and the new file's name reads back as today and an index above every index used today |
| Naming.GenerateReadsBack | src/main.rs:119-127 | whatever the listing, a successful run's file name reads back as today and the index after the one the scan reported, when that index has two digits and the name and column have no line break, and continues with " - ", the operation's phrase and ".sql" |
| Naming.PhraseHasNoLineBreak | src/main.rs:32-41 | the phrase of a validated request contains a line break only if its name or column does |
| Naming.NextIndexIsFresh | src/main.rs:123 | when each day's indices ascend in enumeration order and the scan succeeds, the next index is above every index already used today |
| Naming.NextNameIsFresh | src/main.rs:119-127 | with no file dated after today, each day's indices listed in ascending order and today's below 99, the scan succeeds and the new name reads back as today and an index above every index used today |
| Naming.HundredthListedFirstRepeats | src/main.rs:123-127 | listed in name order, today's file 100 precedes file 99, the scan reports 99, and the next index is 100 again |
| Naming.HundredthSortsFirst | src/main.rs:127 | the composed names of today's files 100 and 99 agree on the date and differ first at the ninth character, '1' against '9', so name order lists file 100 first |
| Naming.ThreeDigitListedFirst | src/main.rs:184-193 | a file of today with a three-digit index enumerated before one with a two-digit index is passed over: the scan reports the two-digit index |
| Naming.TieKeepsLastEnumerated | src/main.rs:184 | with today's file 02 enumerated before today's file 01, the scan reports 1 and the next index, 2, repeats an existing one |

## Left out

- Command-line parsing (clap), logging (`env_logger`, `info!`) and the process exit status are left out. The model starts from a parsed `Args` value.
- `env::current_dir`, `Path::exists` and `File::create`/`write_all` are left out. The working directory is a parameter, and the marker files are the set of directories that hold one. The written file is returned as a value.
- Recursive enumeration with `glob::glob` is left out. Its results are the `listing` parameter: the names the glob yields, in order. The pattern is built from the root's path text, which the model does not: a root whose path contains an unclosed `[` makes `glob::glob` return a `PatternError` that fails the whole run, and a root containing glob metacharacters such as `/p/[x]` matches other directories (`/p/x`), so the existing files go unseen and index 01 is issued again. Neither case is modelled. This also leaves out enumeration errors that `filter_map(Result::ok)` skips, non-UTF-8 names, and the `unwrap` of a non-UTF-8 root path.
- The clock, `Local::now()`, is the `today` parameter. The code reads the clock twice, once in the scan and once in `main`, so a run across midnight can mix two dates. The model uses a single date.
- Template rendering with tinytemplate and the text of the three `templates/*.tmpl` files are left out. The templates are a foreign library and files that are not part of this model. A template is an opaque tag. Rendering errors and the empty file left behind when rendering fails after `File::create` are not modelled.
- Unicode digits matched by Rust's `\d` and byte slicing of non-ASCII names are left out. Digits are ASCII `'0'`..`'9'`.
- Dates with years outside 0000-9999 are left out, because chrono renders them with a sign. `Dates.Valid` bounds the year, so the model assumes a four-digit year for today.
- `Path::parent` on relative paths and on Windows prefixes is left out. A directory is an absolute list of components whose parent drops the last component.
- Concurrent invocations that race for the same index are left out. The code itself has no concurrency.
- A `/` in `--name` or `--column` is left out. `ReplaceSpaces` keeps it, so `current_dir.join(file_name)` names a file in a subdirectory. `File::create` fails unless that subdirectory exists, and when it does, later scans see only the last path component (`file_name()`), which does not read back as today's date and index. `Naming.FileNameRoundTrip`, `Naming.NextNameIsFresh` and `Naming.GenerateIsFresh` state what the scanner makes of the composed name; they describe the file found on a later run only when the phrase has no `/`.

=== FILE: dates.dfy ===
/**
 Calendar dates as chrono's `NaiveDate` sees them: a proleptic Gregorian
 year, month and day, ordered chronologically, rendered and parsed with the
 format `%Y%m%d`.
 */
module Dates {
  import opened Wrappers
  import opened Digits

  datatype Date = Date(year: nat, month: nat, day: nat)

  /** Rust's `std::cmp::Ordering`. */
  datatype Ordering = Less | Equal | Greater

  predicate IsLeapYear(y: nat) {
    y % 4 == 0 && (y % 100 != 0 || y % 400 == 0)
  }

  /** The length of month `m` of year `y`. Outside February the lengths
      alternate 31, 30 from January to July and again from August to
      December; February has 29 days in a leap year and 28 otherwise. */
  function DaysInMonth(y: nat, m: nat): (n: nat)
    requires 1 <= m <= 12
    ensures 28 <= n <= 31
    ensures n == 29 <==> m == 2 && IsLeapYear(y)
    ensures m == 2 && !IsLeapYear(y) ==> n == 28
    ensures m != 2 ==> n == 30 + (m + m / 8) % 2
  {
    if m == 2 then (if IsLeapYear(y) then 29 else 28)
    else if m == 4 || m == 6 || m == 9 || m == 11 then 30
    else 31
  }

  /** The twelve months make up a year of 365 days, or 366 in a leap year. */
  lemma MonthsMakeYear(y: nat)
    ensures DaysInMonth(y, 1) + DaysInMonth(y, 2) + DaysInMonth(y, 3) + DaysInMonth(y, 4)
      + DaysInMonth(y, 5) + DaysInMonth(y, 6) + DaysInMonth(y, 7) + DaysInMonth(y, 8)
      + DaysInMonth(y, 9) + DaysInMonth(y, 10) + DaysInMonth(y, 11) + DaysInMonth(y, 12)
      == if IsLeapYear(y) then 366 else 365
  {
  }

  /** A real calendar day whose year has four digits. */
  predicate Valid(d: Date) {
    d.year <= 9999 && 1 <= d.month <= 12 && 1 <= d.day <= DaysInMonth(d.year, d.month)
  }

  /** Strictly earlier in the calendar. */
  predicate Before(a: Date, b: Date) {
    || a.year < b.year
    || (a.year == b.year && a.month < b.month)
    || (a.year == b.year && a.month == b.month && a.day < b.day)
  }

  /** `YYYYMMDD` read as one decimal number. */
  function Key(d: Date): nat {
    d.year * 10000 + d.month * 100 + d.day
  }

  /** `Ord::cmp` on `NaiveDate`. */
  function Compare(a: Date, b: Date): (r: Ordering)
    ensures r == Equal <==> a == b
    ensures r == Less <==> Before(a, b)
    ensures r == Greater <==> Before(b, a)
    ensures Valid(a) && Valid(b) ==> (r == Less <==> Key(a) < Key(b))
  {
    if Before(a, b) then Less else if a == b then Equal else Greater
  }

  /** `date.format("%Y%m%d")`: each field zero-padded to its width. */
  function Format(d: Date): (s: string)
    requires Valid(d)
    ensures |s| == 8 && AllDigits(s)
  {
    FormatFields(d);
    ZeroPad(d.year, 4) + ZeroPad(d.month, 2) + ZeroPad(d.day, 2)
  }

  /** `NaiveDate::parse_from_str(s, "%Y%m%d")` on eight ASCII digits: four
      digits of year, two of month, two of day, then a calendar check. */
  function Parse(s: string): (r: Option<Date>)
    requires |s| == 8 && AllDigits(s)
    ensures r.Some? ==> Valid(r.value) && Format(r.value) == s
  {
    var d := Fields(s);
    if Valid(d) then
      FieldsRecombine(s);
      Some(d)
    else
      None
  }

  /** The year, month and day digits of an eight-digit string, unchecked. */
  function Fields(s: string): Date
    requires |s| == 8 && AllDigits(s)
  {
    Date(ValueOf(s[..4]), ValueOf(s[4..6]), ValueOf(s[6..]))
  }

  lemma FieldsRecombine(s: string)
    requires |s| == 8 && AllDigits(s) && Valid(Fields(s))
    ensures Format(Fields(s)) == s
  {
    ZeroPadOfValue(s[..4]);
    ZeroPadOfValue(s[4..6]);
    ZeroPadOfValue(s[6..]);
    assert s == s[..4] + s[4..6] + s[6..];
  }

  /** Parsing and formatting are inverse on valid dates: both directions. */
  lemma ParseFormatRoundTrip(s: string, d: Date)
    requires |s| == 8 && AllDigits(s)
    ensures Parse(s) == Some(d) <==> Valid(d) && Format(d) == s
  {
    if Valid(d) && Format(d) == s {
      FormatFields(d);
      assert Fields(s) == d;
    }
  }

  /** The eight-digit rendering, read as a number, is `YYYYMMDD`. */
  lemma FormatValue(d: Date)
    requires Valid(d)
    ensures ValueOf(Format(d)) == Key(d)
  {
    FormatFields(d);
  }

  /** Chronological order and the numeric order of the eight-digit rendering agree. */
  lemma FormatOrder(a: Date, b: Date)
    requires Valid(a) && Valid(b)
    ensures Before(a, b) <==> ValueOf(Format(a)) < ValueOf(Format(b))
  {
    FormatValue(a);
    FormatValue(b);
  }

  /** The rendering has fixed-width fields that read back to the date's own. */
  lemma FormatFields(d: Date)
    requires Valid(d)
    ensures var s := ZeroPad(d.year, 4) + ZeroPad(d.month, 2) + ZeroPad(d.day, 2);
      && |s| == 8 && AllDigits(s) && ValueOf(s) == Key(d)
      && ValueOf(s[..4]) == d.year && ValueOf(s[4..6]) == d.month && ValueOf(s[6..]) == d.day
  {
    assert Pow10(2) == 100 by { assert Pow10(1) == 10; }
    assert Pow10(4) == 10000 by { assert Pow10(3) == 1000; }
    var y, m, dd := ZeroPad(d.year, 4), ZeroPad(d.month, 2), ZeroPad(d.day, 2);
    ZeroPadIsLowDigits(d.year, 4);
    ZeroPadIsLowDigits(d.month, 2);
    ZeroPadIsLowDigits(d.day, 2);
    assert |y| == 4 && |m| == 2 && |dd| == 2;
    var s := y + m + dd;
    assert s[..4] == y && s[4..6] == m && s[6..] == dd;
    ValueOfConcat(y, m);
    var ym := ValueOf(y + m);
    assert ym == d.year * 100 + d.month;
    ValueOfConcat(y + m, dd);
    assert ValueOf(s) == ym * 100 + d.day;
  }
}

=== FILE: digits.dfy ===
/**
 Decimal digit strings: the ASCII digits the scanner's regular expression
 matches, their value (Rust's `str::parse` on a digit string) and the
 zero-padded rendering of `format!("{n:0w}")`.
 */
module Digits {

  predicate IsDigit(c: char) {
    '0' <= c <= '9'
  }

  predicate AllDigits(s: string) {
    forall i :: 0 <= i < |s| ==> IsDigit(s[i])
  }

  function DigitValue(c: char): nat
    requires IsDigit(c)
  {
    c as int - '0' as int
  }

  function DigitChar(n: nat): (c: char)
    requires n < 10
    ensures IsDigit(c) && DigitValue(c) == n
  {
    ('0' as int + n) as char
  }

  function Pow10(k: nat): (p: nat)
    ensures p >= 1
  {
    if k == 0 then 1 else 10 * Pow10(k - 1)
  }

  /** The value of a decimal digit string, most significant digit first. */
  function ValueOf(s: string): nat
    requires AllDigits(s)
  {
    if |s| == 0 then 0 else 10 * ValueOf(s[..|s| - 1]) + DigitValue(s[|s| - 1])
  }

  /** The shortest decimal rendering of `n` (Rust's `Display` for integers). */
  function ToDecimal(n: nat): (s: string)
    ensures 1 <= |s| && AllDigits(s)
    ensures s[0] == '0' <==> n == 0
    ensures |s| == 1 || s[0] != '0'
  {
    if n < 10 then [DigitChar(n)] else ToDecimal(n / 10) + [DigitChar(n % 10)]
  }

  function Zeros(k: nat): (s: string)
    ensures |s| == k
  {
    seq(k, _ => '0')
  }

  /** Left-pads `s` with '0' up to width `w`; longer strings are kept whole. */
  function PadLeft(s: string, w: nat): string {
    if |s| < w then Zeros(w - |s|) + s else s
  }

  /** `format!("{n:0w}")`: at least `w` characters, never truncated. */
  function ZeroPad(n: nat, w: nat): (s: string)
    ensures w <= |s| && AllDigits(s)
    ensures ValueOf(s) == n
    ensures |s| > w ==> |s| == 1 || s[0] != '0'
  {
    ValueOfToDecimal(n);
    var d := ToDecimal(n);
    if |d| < w then ValueOfLeadingZeros(w - |d|, d); PadLeft(d, w) else d
  }

  /** The `w` least significant decimal digits of `n`, as a fixed-width string. */
  function LowDigits(n: nat, w: nat): (s: string)
    ensures |s| == w && AllDigits(s)
  {
    if w == 0 then [] else LowDigits(n / 10, w - 1) + [DigitChar(n % 10)]
  }

  lemma {:induction false} ValueOfToDecimal(n: nat)
    ensures ValueOf(ToDecimal(n)) == n
  {
    if n >= 10 {
      var s := ToDecimal(n);
      assert s[..|s| - 1] == ToDecimal(n / 10);
      ValueOfToDecimal(n / 10);
    }
  }

  lemma {:induction false} ValueOfLeadingZeros(k: nat, s: string)
    requires AllDigits(s)
    ensures AllDigits(Zeros(k) + s) && ValueOf(Zeros(k) + s) == ValueOf(s)
  {
    if |s| == 0 {
      ValueOfZeros(k);
      assert Zeros(k) + s == Zeros(k);
    } else {
      var p := s[..|s| - 1];
      assert (Zeros(k) + s)[..|Zeros(k) + s| - 1] == Zeros(k) + p;
      ValueOfLeadingZeros(k, p);
    }
  }

  lemma {:induction false} ValueOfZeros(k: nat)
    ensures AllDigits(Zeros(k)) && ValueOf(Zeros(k)) == 0
  {
    if k > 0 {
      assert Zeros(k)[..k - 1] == Zeros(k - 1);
      ValueOfZeros(k - 1);
    }
  }

  /** Reading back a fixed-width rendering gives the number, when it fits. */
  lemma {:induction false} ValueOfLowDigits(n: nat, w: nat)
    requires n < Pow10(w)
    ensures ValueOf(LowDigits(n, w)) == n
  {
    if w > 0 {
      var s := LowDigits(n, w);
      assert s[..w - 1] == LowDigits(n / 10, w - 1);
      DropLastDigit(n, w);
      ValueOfLowDigits(n / 10, w - 1);
      assert n == 10 * (n / 10) + n % 10;
    }
  }

  /** A digit string is the fixed-width rendering of its own value. */
  lemma {:induction false} LowDigitsOfValue(s: string)
    requires AllDigits(s)
    ensures LowDigits(ValueOf(s), |s|) == s
  {
    if |s| > 0 {
      var p := s[..|s| - 1];
      LowDigitsOfValue(p);
      var v := ValueOf(s);
      assert v / 10 == ValueOf(p) && v % 10 == DigitValue(s[|s| - 1]);
      assert s == p + [s[|s| - 1]];
    }
  }

  lemma DropLastDigit(n: nat, w: nat)
    requires 1 <= w && n < Pow10(w)
    ensures n / 10 < Pow10(w - 1)
  {
  }

  lemma PadLeftSnoc(d: string, w: nat, c: char)
    ensures PadLeft(d + [c], w + 1) == PadLeft(d, w) + [c]
  {
    if |d| < w {
      assert Zeros(w - |d|) + d + [c] == Zeros(w - |d|) + (d + [c]);
    }
  }

  lemma {:induction false} LowDigitsOfZero(w: nat)
    ensures LowDigits(0, w) == Zeros(w)
  {
    if w > 0 {
      LowDigitsOfZero(w - 1);
      assert Zeros(w) == Zeros(w - 1) + ['0'];
    }
  }

  /** Appending digits shifts the value of the prefix left by their count. */
  lemma {:induction false} ValueOfConcat(a: string, b: string)
    requires AllDigits(a) && AllDigits(b)
    ensures AllDigits(a + b) && ValueOf(a + b) == ValueOf(a) * Pow10(|b|) + ValueOf(b)
  {
    if |b| == 0 {
      assert a + b == a;
    } else {
      var p := b[..|b| - 1];
      assert (a + b)[..|a + b| - 1] == a + p;
      ValueOfConcat(a, p);
      assert (a + b)[|a + b| - 1] == b[|b| - 1];
      ShiftDigit(ValueOf(a), ValueOf(p), DigitValue(b[|b| - 1]), Pow10(|p|));
    }
  }

  lemma ShiftDigit(va: int, vp: int, c: int, q: int)
    ensures 10 * (va * q + vp) + c == va * (10 * q) + (10 * vp + c)
  {
  }

  lemma {:induction false} ValueBound(s: string)
    requires AllDigits(s)
    ensures ValueOf(s) < Pow10(|s|)
  {
    if |s| > 0 {
      ValueBound(s[..|s| - 1]);
    }
  }

  /** A digit string of width `w` is the `{n:0w}` rendering of its own value. */
  lemma ZeroPadOfValue(s: string)
    requires AllDigits(s) && 1 <= |s|
    ensures ZeroPad(ValueOf(s), |s|) == s
  {
    ValueBound(s);
    ZeroPadIsLowDigits(ValueOf(s), |s|);
    LowDigitsOfValue(s);
  }

  /** `{n:0w}` is the fixed-width rendering whenever `n` has at most `w` digits. */
  lemma {:induction false} ZeroPadIsLowDigits(n: nat, w: nat)
    requires 1 <= w && n < Pow10(w)
    ensures ZeroPad(n, w) == LowDigits(n, w)
  {
    var c := DigitChar(n % 10);
    if n < 10 {
      LowDigitsOfZero(w - 1);
      assert n / 10 == 0 && n % 10 == n;
      assert ToDecimal(n) == [c];
      assert ZeroPad(n, w) == PadLeft([c], w) == Zeros(w - 1) + [c];
    } else {
      DropLastDigit(n, w);
      ZeroPadIsLowDigits(n / 10, w - 1);
      var d := ToDecimal(n / 10);
      assert ToDecimal(n) == d + [c];
      PadLeftSnoc(d, w - 1, c);
    }
  }
}

=== FILE: naming.dfy ===
/**
 The body of `main`: validate the request, locate the root, scan the
 existing migrations, derive the next index and compose the new file's
 name `YYYYMMDDNN - <phrase>.sql`, choosing the template to render into it.
 */
module Naming {
  import opened Wrappers
  import opened Digits
  import opened Dates
  import opened Operations
  import opened Root
  import opened Scanner

  /** `last_index.map(|index| index + 1).unwrap_or(1)`. */
  function NextIndex(last: Option<nat>): (r: nat)
    ensures last.None? ==> r == 1
    ensures last.Some? ==> r == last.value + 1
  {
    match last
    case Some(i) => i + 1
    case None => 1
  }

  /** `format!("{current_date}{index:02} - {file_name_part}.sql")`. */
  function FileName(today: Date, index: nat, phrase: string): (r: string)
    requires Valid(today)
    ensures |r| >= 10 && r[..8] == Format(today)
    ensures index < 100 ==> r[8..10] == LowDigits(index, 2) && r[10..] == Tail(phrase)
    ensures 100 <= index ==> r[8..] == ToDecimal(index) + Tail(phrase)
  {
    var d, i := Format(today), ZeroPad(index, 2);
    var r := d + i + Tail(phrase);
    assert r[..8] == d;
    assert index < 100 ==> r[8..10] == LowDigits(index, 2) && r[10..] == Tail(phrase) by {
      if index < 100 {
        ZeroPadIsLowDigits(index, 2);
        assert r[8..10] == i && r[10..] == Tail(phrase);
      }
    }
    assert 100 <= index ==> r[8..] == ToDecimal(index) + Tail(phrase) by {
      if 100 <= index {
        assert ToDecimal(index) == ToDecimal(index / 10) + [DigitChar(index % 10)];
        assert i == ToDecimal(index);
        assert r[8..] == i + Tail(phrase);
      }
    }
    r
  }

  /** What follows the date and index in a composed name. */
  function Tail(phrase: string): (t: string)
    ensures NoLineBreak(phrase) ==> NoLineBreak(t)
  {
    " - " + phrase + ".sql"
  }

  /** A composed name is one the scanner accepts and reads back as today's
      date and the same index, as long as the index has two digits and the
      phrase has no line break. */
  lemma FileNameRoundTrip(today: Date, index: nat, phrase: string)
    requires Valid(today) && index < 100 && NoLineBreak(phrase)
    ensures Accept(FileName(today, index, phrase)) == Some(Entry(today, index))
  {
    var name := FileName(today, index, phrase);
    ValueOfLowDigits(index, 2);
    AcceptsDatedName(name, today);
  }

  /** The index after 99 has three digits; the scanner takes only the first
      two of them, so the hundredth file of a day reads back as index 10.
      What the next run issues depends on the enumeration order: listed in
      name order, the hundredth file sorts before the 99th and index 100 is
      issued again (`HundredthListedFirstRepeats`); listed last, it makes the
      next index 11, which is issued again. */
  lemma {:induction false} ThreeDigitIndexReadsBackTruncated(today: Date, index: nat, phrase: string)
    requires Valid(today) && 100 <= index < 1000 && NoLineBreak(phrase)
    ensures Accept(FileName(today, index, phrase)) == Some(Entry(today, index / 10))
  {
    var name := FileName(today, index, phrase);
    var t, c := ToDecimal(index / 10), DigitChar(index % 10);
    ThreeDigitZeroPad(index);
    assert name == Format(today) + t + ([c] + Tail(phrase));
    assert name[8..10] == t;
    assert name[10..] == [c] + Tail(phrase);
    assert NoLineBreak([c] + Tail(phrase));
    AcceptsDatedName(name, today);
  }

  lemma ThreeDigitZeroPad(n: nat)
    requires 100 <= n < 1000
    ensures ZeroPad(n, 2) == ToDecimal(n / 10) + [DigitChar(n % 10)]
    ensures |ToDecimal(n / 10)| == 2 && ValueOf(ToDecimal(n / 10)) == n / 10
  {
    assert ToDecimal(n / 10) == ToDecimal(n / 100) + [DigitChar(n / 10 % 10)];
    ValueOfToDecimal(n / 10);
  }

  datatype Failure =
    | Invalid(validation: ValidationError)
    | NoRoot
    | ScanFailed(scan: ScanError)

  /** The file `main` creates: its directory, its name and the template data
      rendered into it, if any. */
  datatype NewFile = NewFile(dir: Path, name: string, template: Option<TemplateData>)

  /** `main`, without its I/O: `cwd` is the working directory, `marked` the
      directories holding the root marker, `listing(root)` the names of the
      `.sql` files the recursive glob yields under `root`, and `today` the
      clock's date. */
  function Generate(args: Args, cwd: Path, marked: set<Path>, listing: Path -> seq<string>, today: Date): (r: Result<NewFile, Failure>)
    requires Valid(today)
    ensures Validate(args).Err? ==> r == Err(Invalid(ColumnRequired))
    ensures Validate(args).Ok? && FindRoot(cwd, marked).Err? ==> r == Err(NoRoot)
    ensures Validate(args).Ok? && FindRoot(cwd, marked).Ok? ==>
      var names := listing(FindRoot(cwd, marked).value);
      (r.Err? <==> exists i :: 0 <= i < |names| && Accept(names[i]).Some? && Before(today, Accept(names[i]).value.date))
    ensures Validate(args).Ok? && FindRoot(cwd, marked).Ok? && r.Err? ==> r.error.ScanFailed?
    ensures r.Err? && r.error.ScanFailed? ==> Before(today, r.error.scan.found)
    ensures r.Ok? ==> r.value.dir == cwd
    ensures r.Ok? ==> |r.value.name| >= 10 && r.value.name[..8] == Format(today)
    ensures r.Ok? ==> r.value.template == GetTemplateData(args.operation, args.name, args.schema, args.column)
  {
    match Validate(args)
    case Err(e) => Err(Invalid(e))
    case Ok(_) =>
      match FindRoot(cwd, marked)
      case Err(_) => Err(NoRoot)
      case Ok(root) =>
        match FindLastFileForCurrentDay(listing(root), today)
        case Err(e) => Err(ScanFailed(e))
        case Ok(last) =>
          var index := NextIndex(last);
          var phrase := ToFileName(args.operation, args.name, args.column);
          Ok(NewFile(cwd, FileName(today, index, phrase), GetTemplateData(args.operation, args.name, args.schema, args.column)))
  }

  /** When each day's indices ascend in enumeration order and the scan
      succeeds, the next index is above every index already used today. */
  lemma {:induction false} NextIndexIsFresh(entries: seq<Entry>, today: Date)
    requires IndicesAscendWithinDay(entries) && Latest(entries, today).Ok?
    ensures forall j :: 0 <= j < |entries| && entries[j].date == today ==>
      entries[j].index < NextIndex(Latest(entries, today).value)
  {
    match Latest(entries, today).value
    case None =>
    case Some(n) =>
      var k :| IsLastMax(entries, k) && entries[k] == Entry(today, n);
      AscendingIndicesGiveDayMaximum(entries, k);
  }

  /** When no scanned file is dated after today, each day's indices ascend in
      enumeration order and today's stay below 99, the scanner accepts the
      composed name with today's date and an index above every index already
      used today: names stay unique and ordered within a day. */
  lemma {:induction false} NextNameIsFresh(names: seq<string>, today: Date, phrase: string)
    requires Valid(today) && NoLineBreak(phrase)
    requires IndicesAscendWithinDay(FilterAccepted(names))
    requires forall e :: e in FilterAccepted(names) ==> !Before(today, e.date) && (e.date == today ==> e.index < 99)
    ensures FindLastFileForCurrentDay(names, today).Ok?
    ensures var index := NextIndex(FindLastFileForCurrentDay(names, today).value);
      && Accept(FileName(today, index, phrase)) == Some(Entry(today, index))
      && forall e :: e in FilterAccepted(names) && e.date == today ==> e.index < index
  {
    var es := FilterAccepted(names);
    NextEntryIsFresh(es, today);
    assert FindLastFileForCurrentDay(names, today) == Latest(es, today);
    FileNameRoundTrip(today, NextIndex(Latest(es, today).value), phrase);
  }

  /** `NextNameIsFresh` on the kept entries: with none after today, each
      day's indices ascending and today's below 99, the scan succeeds and the
      next index has two digits and is above every index used today. */
  lemma NextEntryIsFresh(es: seq<Entry>, today: Date)
    requires IndicesAscendWithinDay(es)
    requires forall e :: e in es ==> !Before(today, e.date) && (e.date == today ==> e.index < 99)
    ensures Latest(es, today).Ok?
    ensures NextIndex(Latest(es, today).value) < 100
    ensures forall e :: e in es && e.date == today ==> e.index < NextIndex(Latest(es, today).value)
  {
    assert forall j :: 0 <= j < |es| ==> es[j] in es;
    NextIndexIsFresh(es, today);
    if Latest(es, today).value.Some? {
      var k :| IsLastMax(es, k) && es[k] == Entry(today, Latest(es, today).value.value);
      assert es[k] in es;
    }
  }

  /** A run whose listing meets the conditions of `NextNameIsFresh`, with a
      name and column free of line breaks, succeeds; the name of the file it
      creates is read back by the scanner as today's date and an index above
      every index already used today. */
  lemma {:induction false} GenerateIsFresh(args: Args, cwd: Path, marked: set<Path>, listing: Path -> seq<string>, today: Date)
    requires Valid(today) && Validate(args).Ok? && FindRoot(cwd, marked).Ok?
    requires NoLineBreak(args.name) && (args.column.Some? ==> NoLineBreak(args.column.value))
    requires var es := FilterAccepted(listing(FindRoot(cwd, marked).value));
      && IndicesAscendWithinDay(es)
      && forall e :: e in es ==> !Before(today, e.date) && (e.date == today ==> e.index < 99)
    ensures var r := Generate(args, cwd, marked, listing, today);
      && r.Ok?
      && Accept(r.value.name).Some?
      && Accept(r.value.name).value.date == today
      && forall e :: e in FilterAccepted(listing(FindRoot(cwd, marked).value)) && e.date == today ==>
           e.index < Accept(r.value.name).value.index
  {
    var names := listing(FindRoot(cwd, marked).value);
    var phrase := ToFileName(args.operation, args.name, args.column);
    PhraseHasNoLineBreak(args);
    NextNameIsFresh(names, today, phrase);
  }

  /** Whatever the listing, a successful run names its file with today's
      date, the index after the last one the scan reported for today, and the
      operation's phrase; when that index has two digits and the phrase has
      no line break, the scanner reads the name back as exactly that. */
  lemma {:induction false} GenerateReadsBack(args: Args, cwd: Path, marked: set<Path>, listing: Path -> seq<string>, today: Date)
    requires Valid(today) && Validate(args).Ok? && FindRoot(cwd, marked).Ok?
    requires NoLineBreak(args.name) && (args.column.Some? ==> NoLineBreak(args.column.value))
    requires Generate(args, cwd, marked, listing, today).Ok?
    requires NextIndex(FindLastFileForCurrentDay(listing(FindRoot(cwd, marked).value), today).value) < 100
    ensures var r := Generate(args, cwd, marked, listing, today);
      var index := NextIndex(FindLastFileForCurrentDay(listing(FindRoot(cwd, marked).value), today).value);
      && Accept(r.value.name) == Some(Entry(today, index))
      && r.value.name[10..] == " - " + ToFileName(args.operation, args.name, args.column) + ".sql"
  {
    var index := NextIndex(FindLastFileForCurrentDay(listing(FindRoot(cwd, marked).value), today).value);
    var phrase := ToFileName(args.operation, args.name, args.column);
    PhraseHasNoLineBreak(args);
    FileNameRoundTrip(today, index, phrase);
  }

  /** The phrase of a validated request has a line break only if its name or
      column has one. */
  lemma PhraseHasNoLineBreak(args: Args)
    requires Validate(args).Ok?
    requires NoLineBreak(args.name) && (args.column.Some? ==> NoLineBreak(args.column.value))
    ensures NoLineBreak(ToFileName(args.operation, args.name, args.column))
  {
    var name, column := args.name, args.column;
    match args.operation
    case Script =>
      var r := ReplaceSpaces(name);
      assert forall i :: 0 <= i < |r| ==> r[i] == '_' || r[i] == name[i];
    case CreateTable => Joined("create table ", name);
    case AlterTable => Joined("alter table ", name);
    case DropTable => Joined("drop table ", name);
    case AddColumn =>
      Joined("add column ", column.value);
      Joined("add column " + column.value, " to ");
      Joined("add column " + column.value + " to ", name);
    case AlterColumn =>
      Joined("alter column ", column.value);
      Joined("alter column " + column.value, " in ");
      Joined("alter column " + column.value + " in ", name);
    case DropColumn =>
      Joined("drop column ", column.value);
      Joined("drop column " + column.value, " from ");
      Joined("drop column " + column.value + " from ", name);
  }

  lemma Joined(a: string, b: string)
    requires NoLineBreak(a) && NoLineBreak(b)
    ensures NoLineBreak(a + b)
  {
    assert forall i :: |a| <= i < |a + b| ==> (a + b)[i] == b[i - |a|];
  }

  /** `max_by` keeps the last of the entries that share the latest date, not
      the one with the largest index: with today's file 02 enumerated before
      today's file 01, the scan reports 1 and the next name reuses index 02. */
  lemma TieKeepsLastEnumerated(today: Date)
    requires Valid(today)
    ensures var names := [FileName(today, 2, "b"), FileName(today, 1, "a")];
      && FindLastFileForCurrentDay(names, today) == Ok(Some(1))
      && NextIndex(Some(1)) == 2
      && Accept(names[0]) == Some(Entry(today, 2))
  {
    FileNameRoundTrip(today, 2, "b");
    FileNameRoundTrip(today, 1, "a");
    SecondOfTodayWins(FileName(today, 2, "b"), FileName(today, 1, "a"), today, 2, 1);
  }

  /** Listed in name order, today's file 100 (`"...100 - y.sql"`) comes before
      file 99 (`"...99 - z.sql"`, see `HundredthSortsFirst`): the scan then
      reports 99 and the next run issues index 100 again. */
  lemma HundredthListedFirstRepeats(today: Date)
    requires Valid(today)
    ensures FindLastFileForCurrentDay([FileName(today, 100, "y"), FileName(today, 99, "z")], today) == Ok(Some(99))
    ensures NextIndex(Some(99)) == 100
  {
    ThreeDigitListedFirst(today, 100, 99, "y", "z");
  }

  /** A file of today with a three-digit index, enumerated before one with a
      two-digit index, is passed over: the scan reports the two-digit one. */
  lemma ThreeDigitListedFirst(today: Date, big: nat, small: nat, p: string, q: string)
    requires Valid(today) && 100 <= big < 1000 && small < 100 && NoLineBreak(p) && NoLineBreak(q)
    ensures FindLastFileForCurrentDay([FileName(today, big, p), FileName(today, small, q)], today) == Ok(Some(small))
  {
    ThreeDigitIndexReadsBackTruncated(today, big, p);
    FileNameRoundTrip(today, small, q);
    SecondOfTodayWins(FileName(today, big, p), FileName(today, small, q), today, big / 10, small);
  }

  /** The two names share their first eight characters and differ first at
      the ninth, `'1'` against `'9'`, so name order lists file 100 first. */
  lemma HundredthSortsFirst(today: Date)
    requires Valid(today)
    ensures var a, b := FileName(today, 100, "y"), FileName(today, 99, "z");
      a[..8] == b[..8] && a[8] == '1' && b[8] == '9'
  {
    ThreeDigitZeroPad(100);
    assert ToDecimal(10) == ToDecimal(1) + [DigitChar(0)];
    assert ToDecimal(99) == ToDecimal(9) + [DigitChar(9)];
  }

  /** Of two names both accepted as today's files, the scan reports the
      index of the second. */
  lemma SecondOfTodayWins(a: string, b: string, today: Date, m: nat, n: nat)
    requires Accept(a) == Some(Entry(today, m)) && Accept(b) == Some(Entry(today, n))
    ensures FindLastFileForCurrentDay([a, b], today) == Ok(Some(n))
  {
    FilterAcceptedPair(a, b, Entry(today, m), Entry(today, n));
    SameDayKeepsSecond(today, m, n);
  }

  /** Of two entries dated today, `max_by` keeps the second. */
  lemma SameDayKeepsSecond(today: Date, m: nat, n: nat)
    ensures Latest([Entry(today, m), Entry(today, n)], today) == Ok(Some(n))
  {
    var es := [Entry(today, m), Entry(today, n)];
    assert es[..1] == [Entry(today, m)] && [Entry(today, m)][..0] == [];
    assert Select(es) == Some(Entry(today, n));
  }
}

=== FILE: operations.dfy ===
/**
 The request the tool is invoked with: the seven migration operations, the
 argument check, the descriptive phrase each operation puts in the file
 name, and the choice of boilerplate template.
 */
module Operations {
  import opened Wrappers

  datatype Operation =
    | Script
    | CreateTable
    | AlterTable
    | DropTable
    | AddColumn
    | AlterColumn
    | DropColumn

  /** The parsed command line: `operation --name N [--column C] [--schema S]`. */
  datatype Args = Args(operation: Operation, name: string, column: Option<string>, schema: Option<string>)

  datatype ValidationError = ColumnRequired

  /** The operations that act on one column of a table. */
  predicate IsColumnOperation(op: Operation) {
    op.AddColumn? || op.AlterColumn? || op.DropColumn?
  }

  /** `Args::validate`: a column operation without `--column` is refused. */
  function Validate(args: Args): (r: Result<(), ValidationError>)
    ensures r.Err? <==> IsColumnOperation(args.operation) && args.column.None?
    ensures r.Ok? ==> (IsColumnOperation(args.operation) ==> args.column.Some?)
  {
    if IsColumnOperation(args.operation) && args.column.None? then Err(ColumnRequired) else Ok(())
  }

  /** `name.replace(' ', "_")`. */
  function ReplaceSpaces(name: string): (r: string)
    ensures |r| == |name|
    ensures forall i :: 0 <= i < |name| ==> r[i] == (if name[i] == ' ' then '_' else name[i])
  {
    if |name| == 0 then []
    else [if name[0] == ' ' then '_' else name[0]] + ReplaceSpaces(name[1..])
  }

  /** The fixed words in front of the name for the table operations. */
  function TableVerb(op: Operation): string
    requires !op.Script? && !IsColumnOperation(op)
  {
    match op
    case CreateTable => "create table "
    case AlterTable => "alter table "
    case DropTable => "drop table "
  }

  /** The fixed words around the column and the name for the column operations. */
  function ColumnVerb(op: Operation): (string, string)
    requires IsColumnOperation(op)
  {
    match op
    case AddColumn => ("add column ", " to ")
    case AlterColumn => ("alter column ", " in ")
    case DropColumn => ("drop column ", " from ")
  }

  /** `Operation::to_file_name`: the phrase that describes the migration in its
      file name. The column operations unwrap the column, so the caller must
      have one; a validated request always does. */
  function ToFileName(op: Operation, name: string, column: Option<string>): (r: string)
    requires IsColumnOperation(op) ==> column.Some?
    ensures op.Script? ==> r == ReplaceSpaces(name)
    ensures op.CreateTable? ==> r == "create table " + name
    ensures op.AlterTable? ==> r == "alter table " + name
    ensures op.DropTable? ==> r == "drop table " + name
    ensures op.AddColumn? ==> r == "add column " + column.value + " to " + name
    ensures op.AlterColumn? ==> r == "alter column " + column.value + " in " + name
    ensures op.DropColumn? ==> r == "drop column " + column.value + " from " + name
  {
    match op
    case Script => ReplaceSpaces(name)
    case CreateTable | AlterTable | DropTable => TableVerb(op) + name
    case AddColumn | AlterColumn | DropColumn =>
      var (verb, link) := ColumnVerb(op);
      verb + column.value + link + name
  }

  /** A script phrase keeps the name's length and every character but the
      spaces, and contains no space at all; replacing again changes nothing. */
  lemma ScriptPhrase(name: string)
    ensures var r := ToFileName(Script, name, None);
      && |r| == |name|
      && (forall i :: 0 <= i < |name| && name[i] != ' ' ==> r[i] == name[i])
      && (forall i :: 0 <= i < |name| && name[i] == ' ' ==> r[i] == '_')
      && ' ' !in r
      && ReplaceSpaces(r) == r
  {
    var r := ReplaceSpaces(name);
    assert forall i :: 0 <= i < |r| ==> r[i] != ' ';
    assert ReplaceSpaces(r) == r;
  }

  /** Reads back which operation wrote a phrase: a script phrase has no space,
      every other phrase opens with its own fixed words. */
  function OperationOf(phrase: string): Option<Operation> {
    if ' ' !in phrase then Some(Script)
    else if "create table " <= phrase then Some(CreateTable)
    else if "alter table " <= phrase then Some(AlterTable)
    else if "drop table " <= phrase then Some(DropTable)
    else if "add column " <= phrase then Some(AddColumn)
    else if "alter column " <= phrase then Some(AlterColumn)
    else if "drop column " <= phrase then Some(DropColumn)
    else None
  }

  /** The phrase determines the operation, and for the table operations it
      also determines the name: distinct requests of that kind never share
      a phrase. */
  lemma {:induction false} PhraseDeterminesOperation(op: Operation, name: string, column: Option<string>)
    requires IsColumnOperation(op) ==> column.Some?
    ensures OperationOf(ToFileName(op, name, column)) == Some(op)
    ensures !op.Script? && !IsColumnOperation(op) ==>
      ToFileName(op, name, column)[|TableVerb(op)|..] == name
  {
    if op.Script? {
      ScriptPhrase(name);
    } else if IsColumnOperation(op) {
      var (verb, link) := ColumnVerb(op);
      assert ToFileName(op, name, column) == verb + (column.value + link + name);
      PhraseOpensWith(op, column.value + link + name);
    } else {
      PhraseOpensWith(op, name);
    }
  }

  /** The fixed words a phrase of a non-script operation opens with. */
  function Verb(op: Operation): string
    requires !op.Script?
  {
    if IsColumnOperation(op) then ColumnVerb(op).0 else TableVerb(op)
  }

  /** A phrase that opens with an operation's fixed words is read back as
      that operation. */
  lemma PhraseOpensWith(op: Operation, rest: string)
    requires !op.Script?
    ensures (Verb(op) + rest)[|Verb(op)|..] == rest
    ensures OperationOf(Verb(op) + rest) == Some(op)
  {
    var verb := Verb(op);
    var r := verb + rest;
    assert verb <= r;
    assert r[|verb| - 1] == ' ';
    // The fixed words differ from the words OperationOf compares first at character 0, 1, 5 or 6.
    assert r[0] == verb[0] && r[1] == verb[1] && r[5] == verb[5] && r[6] == verb[6];
  }

  /** The boilerplate files compiled into the tool; their text is not modelled. */
  datatype Template = CreateTableTemplate | AddColumnTemplate | DropColumnTemplate

  /** What a template is rendered with. `dot` is the separator written
      between the schema and the table name. */
  datatype TemplateData = TemplateData(
    tableName: string,
    columnName: Option<string>,
    schemaName: Option<string>,
    dot: Option<string>,
    template: Template)

  /** The template an operation is rendered with, if any. */
  function TemplateOf(op: Operation): Option<Template> {
    match op
    case CreateTable => Some(CreateTableTemplate)
    case AddColumn => Some(AddColumnTemplate)
    case DropColumn => Some(DropColumnTemplate)
    case _ => None
  }

  /** `Operation::get_template_data`. */
  function GetTemplateData(op: Operation, name: string, schema: Option<string>, column: Option<string>): (r: Option<TemplateData>)
    ensures r.Some? <==> op.CreateTable? || op.AddColumn? || op.DropColumn?
    ensures r.Some? ==> Some(r.value.template) == TemplateOf(op)
    ensures r.Some? ==> r.value.tableName == name && r.value.schemaName == schema
    ensures r.Some? ==> (r.value.dot.Some? <==> schema.Some?)
    ensures r.Some? && r.value.dot.Some? ==> r.value.dot.value == "."
    ensures r.Some? ==> r.value.columnName == (if op.CreateTable? then None else column)
  {
    var dot := if schema.Some? then Some(".") else None;
    match op
    case CreateTable => Some(TemplateData(name, None, schema, dot, CreateTableTemplate))
    case AddColumn => Some(TemplateData(name, column, schema, dot, AddColumnTemplate))
    case DropColumn => Some(TemplateData(name, column, schema, dot, DropColumnTemplate))
    case _ => None
  }

  /** After validation the two column templates always receive the column,
      and no template is chosen for an operation without one. */
  lemma ValidatedTemplateHasColumn(args: Args)
    requires Validate(args).Ok?
    ensures var t := GetTemplateData(args.operation, args.name, args.schema, args.column);
      t.Some? && !args.operation.CreateTable? ==> t.value.columnName == args.column && args.column.Some?
  {
  }
}

=== FILE: root.dfy ===
/**
 `find_root`: the walk from the working directory up towards the
 filesystem root, looking for the directory that holds the `.gen_root`
 marker file.
 */
module Root {
  import opened Wrappers

  /** An absolute directory as its components below the filesystem root;
      `[]` is the root itself, which has no parent. */
  type Path = seq<string>

  datatype RootError = NoGenRoot

  /** `dir` or one of its ancestors, up to and including the filesystem root. */
  predicate IsAncestorOrSelf(a: Path, dir: Path) {
    a <= dir
  }

  /** `r` is marked, and no directory between it and `dir` (including `dir`
      itself) is. */
  predicate IsNearestMarked(r: Path, dir: Path, marked: set<Path>) {
    && IsAncestorOrSelf(r, dir)
    && r in marked
    && forall k :: |r| < k <= |dir| ==> dir[..k] !in marked
  }

  /** `find_root`. `marked` is the set of directories in which the marker
      file exists; the filesystem itself is not modelled. */
  function FindRoot(dir: Path, marked: set<Path>): (r: Result<Path, RootError>)
    ensures r.Ok? ==> IsNearestMarked(r.value, dir, marked)
    ensures r.Err? <==> forall k :: 0 <= k <= |dir| ==> dir[..k] !in marked
    decreases |dir|
  {
    assert dir[..|dir|] == dir;
    if dir in marked then Ok(dir)
    else if |dir| > 0 then
      var parent := dir[..|dir| - 1];
      assert forall k :: 0 <= k <= |parent| ==> parent[..k] == dir[..k];
      FindRoot(parent, marked)
    else Err(NoGenRoot)
  }

  /** Among several marked ancestors the nearest one is found, never a more
      distant one; the result is the only directory with that property. */
  lemma {:induction false} NearestMarkedUnique(dir: Path, marked: set<Path>, a: Path, b: Path)
    requires IsNearestMarked(a, dir, marked) && IsNearestMarked(b, dir, marked)
    ensures a == b
  {
    assert a == dir[..|a|] && b == dir[..|b|];
  }

  /** The root found is the nearest marked directory whenever one exists. */
  lemma FindRootFindsNearest(dir: Path, marked: set<Path>, a: Path)
    requires IsNearestMarked(a, dir, marked)
    ensures FindRoot(dir, marked) == Ok(a)
  {
    assert a == dir[..|a|];
    NearestMarkedUnique(dir, marked, a, FindRoot(dir, marked).value);
  }
}

=== FILE: scanner.dfy ===
/**
 `find_last_file_for_current_day`: which existing migration file names the
 scanner accepts, which one `max_by` keeps, and what that entry's date says
 about today's sequence. The recursive glob is modelled as the sequence of
 file names it yields, in its order; the clock is the `today` parameter.
 */
module Scanner {
  import opened Wrappers
  import opened Digits
  import opened Dates

  /** The date and sequence index read from an accepted file name. */
  datatype Entry = Entry(date: Date, index: nat)

  datatype ScanError = FutureDate(found: Date)

  predicate NoLineBreak(s: string) {
    forall i :: 0 <= i < |s| ==> s[i] != '\n'
  }

  /** The regular expression `^\d{8}(\d{2}).*$` on ASCII digits: ten digits,
      then anything up to the end of the name except a line break, which
      `.` does not match. */
  predicate MatchesPattern(name: string) {
    && |name| >= 10
    && AllDigits(name[..8])
    && AllDigits(name[8..10])
    && NoLineBreak(name[10..])
  }

  /** One step of the `filter_map`: the name matches, its first eight digits
      parse as a date, and the two captured digits are the index. */
  function Accept(name: string): (r: Option<Entry>)
    ensures r.Some? ==> MatchesPattern(name)
    ensures r.Some? ==> Valid(r.value.date) && Format(r.value.date) == name[..8]
    ensures r.Some? ==> r.value.index < 100 && ZeroPad(r.value.index, 2) == name[8..10]
  {
    if MatchesPattern(name) then
      match Parse(name[..8])
      case None => None
      case Some(d) =>
        ValueBound(name[8..10]);
        ZeroPadOfValue(name[8..10]);
        Some(Entry(d, ValueOf(name[8..10])))
    else
      None
  }

  /** Conversely, every name that matches the pattern and opens with the
      rendering of a real date is accepted, with that date and the captured
      index. */
  lemma AcceptsDatedName(name: string, d: Date)
    requires MatchesPattern(name) && Valid(d) && Format(d) == name[..8]
    ensures Accept(name) == Some(Entry(d, ValueOf(name[8..10])))
  {
    ParseFormatRoundTrip(name[..8], d);
  }

  /** The `filter_map` over the enumerated names: the accepted entries, in
      enumeration order. What it keeps is stated by `FilterAcceptedMembers`,
      `FilterAcceptedAll` and `FilterAcceptedInOrder`. */
  function FilterAccepted(names: seq<string>): (es: seq<Entry>)
    ensures |es| <= |names|
  {
    Somes(Scan(names))
  }

  /** The `filter_map` step applied to each name, in order. */
  function Scan(names: seq<string>): (opts: seq<Option<Entry>>)
    ensures |opts| == |names|
  {
    seq(|names|, i requires 0 <= i < |names| => Accept(names[i]))
  }

  /** The entries kept are exactly those of the accepted names. */
  lemma FilterAcceptedMembers(names: seq<string>)
    ensures forall e :: e in FilterAccepted(names) <==> exists i :: 0 <= i < |names| && Accept(names[i]) == Some(e)
  {
    var opts := Scan(names);
    SomesMembers(opts);
    forall e ensures Some(e) in opts <==> exists i :: 0 <= i < |names| && Accept(names[i]) == Some(e) {
      if Some(e) in opts {
        var i :| 0 <= i < |opts| && opts[i] == Some(e);
        assert Accept(names[i]) == Some(e);
      }
      if exists i :: 0 <= i < |names| && Accept(names[i]) == Some(e) {
        var i :| 0 <= i < |names| && Accept(names[i]) == Some(e);
        assert opts[i] == Some(e);
      }
    }
  }

  /** When every name is accepted, every one is kept, in enumeration order. */
  lemma FilterAcceptedAll(names: seq<string>)
    requires forall i :: 0 <= i < |names| ==> Accept(names[i]).Some?
    ensures |FilterAccepted(names)| == |names|
    ensures forall i :: 0 <= i < |names| ==> Some(FilterAccepted(names)[i]) == Accept(names[i])
  {
    var opts := Scan(names);
    assert forall i :: 0 <= i < |names| ==> opts[i] == Accept(names[i]);
    SomesAll(opts);
  }

  /** The positions of the accepted names, in enumeration order. */
  function AcceptedPositions(names: seq<string>): (ps: seq<nat>)
    ensures forall k :: 0 <= k < |ps| ==> ps[k] < |names|
  {
    SomePositions(Scan(names))
  }

  /** The `filter_map` keeps order: the kept entries are, one for one, the
      entries of the accepted names in the order the names were enumerated,
      and no accepted name is skipped. */
  lemma FilterAcceptedInOrder(names: seq<string>)
    ensures var es, ps := FilterAccepted(names), AcceptedPositions(names);
      && |ps| == |es|
      && (forall k :: 0 <= k < |ps| ==> Accept(names[ps[k]]) == Some(es[k]))
      && (forall k, l :: 0 <= k < l < |ps| ==> ps[k] < ps[l])
      && (forall i :: 0 <= i < |names| && Accept(names[i]).Some? ==> i in ps)
  {
    var opts := Scan(names);
    SomePositionsInOrder(opts);
    PositionsRead(opts);
    assert forall i :: 0 <= i < |names| ==> opts[i] == Accept(names[i]);
  }

  /** The positions of the present values of `opts`, in order. */
  function SomePositions(opts: seq<Option<Entry>>): (ps: seq<nat>)
    ensures forall k :: 0 <= k < |ps| ==> ps[k] < |opts| && opts[ps[k]].Some?
  {
    PositionsFrom(opts, 0)
  }

  /** The positions at or after `i` whose value is present, in order. */
  function PositionsFrom(opts: seq<Option<Entry>>, i: nat): (ps: seq<nat>)
    requires i <= |opts|
    ensures forall k :: 0 <= k < |ps| ==> i <= ps[k] < |opts| && opts[ps[k]].Some?
    decreases |opts| - i
  {
    if i == |opts| then []
    else if opts[i].Some? then [i] + PositionsFrom(opts, i + 1)
    else PositionsFrom(opts, i + 1)
  }

  /** `SomePositions` lists every present position once, in increasing order;
      when every value is present, it lists them all. */
  lemma SomePositionsInOrder(opts: seq<Option<Entry>>)
    ensures |SomePositions(opts)| <= |opts|
    ensures forall k, l :: 0 <= k < l < |SomePositions(opts)| ==> SomePositions(opts)[k] < SomePositions(opts)[l]
    ensures forall i :: 0 <= i < |opts| && opts[i].Some? ==> i in SomePositions(opts)
    ensures (forall i :: 0 <= i < |opts| ==> opts[i].Some?) ==>
      |SomePositions(opts)| == |opts| && forall k :: 0 <= k < |opts| ==> SomePositions(opts)[k] == k
  {
    PositionsFromIncrease(opts, 0);
    PositionsFromCover(opts, 0);
    if forall i :: 0 <= i < |opts| ==> opts[i].Some? {
      PositionsFromAll(opts, 0);
    }
  }

  lemma {:induction false} PositionsFromIncrease(opts: seq<Option<Entry>>, i: nat)
    requires i <= |opts|
    ensures |PositionsFrom(opts, i)| <= |opts| - i
    ensures forall k, l :: 0 <= k < l < |PositionsFrom(opts, i)| ==> PositionsFrom(opts, i)[k] < PositionsFrom(opts, i)[l]
    decreases |opts| - i
  {
    if i < |opts| {
      PositionsFromIncrease(opts, i + 1);
    }
  }

  lemma {:induction false} PositionsFromCover(opts: seq<Option<Entry>>, i: nat)
    requires i <= |opts|
    ensures forall j :: i <= j < |opts| && opts[j].Some? ==> j in PositionsFrom(opts, i)
    decreases |opts| - i
  {
    if i < |opts| {
      PositionsFromCover(opts, i + 1);
    }
  }

  lemma {:induction false} PositionsFromAll(opts: seq<Option<Entry>>, i: nat)
    requires i <= |opts|
    requires forall j :: i <= j < |opts| ==> opts[j].Some?
    ensures |PositionsFrom(opts, i)| == |opts| - i
    ensures forall k :: 0 <= k < |opts| - i ==> PositionsFrom(opts, i)[k] == i + k
    decreases |opts| - i
  {
    if i < |opts| {
      PositionsFromAll(opts, i + 1);
    }
  }

  /** Two accepted names are kept, both, in order. */
  lemma FilterAcceptedPair(a: string, b: string, x: Entry, y: Entry)
    requires Accept(a) == Some(x) && Accept(b) == Some(y)
    ensures FilterAccepted([a, b]) == [x, y]
  {
    var names := [a, b];
    assert Scan(names) == [Some(x), Some(y)];
    SomesPair(x, y);
  }

  lemma SomesPair(x: Entry, y: Entry)
    ensures Somes([Some(x), Some(y)]) == [x, y]
  {
    var opts := [Some(x), Some(y)];
    assert forall i :: 0 <= i < |opts| ==> opts[i].Some?;
    SomesAll(opts);
  }

  /** The present values of a sequence of options, in order. */
  function Somes(opts: seq<Option<Entry>>): (xs: seq<Entry>)
    ensures |xs| <= |opts|
  {
    SomePositionsInOrder(opts);
    var ps := SomePositions(opts);
    seq(|ps|, k requires 0 <= k < |ps| => opts[ps[k]].value)
  }

  /** `Somes` keeps exactly the present values. */
  lemma SomesMembers(opts: seq<Option<Entry>>)
    ensures forall x :: x in Somes(opts) <==> Some(x) in opts
  {
    SomePositionsInOrder(opts);
    PositionsCollect(opts, SomePositions(opts), Somes(opts));
  }

  /** When every value is present, `Somes` keeps them all, in order. */
  lemma SomesAll(opts: seq<Option<Entry>>)
    requires forall i :: 0 <= i < |opts| ==> opts[i].Some?
    ensures |Somes(opts)| == |opts|
    ensures forall i :: 0 <= i < |opts| ==> Some(Somes(opts)[i]) == opts[i]
  {
    SomePositionsInOrder(opts);
    PositionsCollect(opts, SomePositions(opts), Somes(opts));
  }

  /** Reading `opts` at the positions of its present values, in order,
      collects exactly those values. */
  lemma PositionsCollect(opts: seq<Option<Entry>>, ps: seq<nat>, xs: seq<Entry>)
    requires |xs| == |ps| <= |opts|
    requires forall k :: 0 <= k < |ps| ==> ps[k] < |opts| && opts[ps[k]] == Some(xs[k])
    requires forall i :: 0 <= i < |opts| && opts[i].Some? ==> i in ps
    requires (forall i :: 0 <= i < |opts| ==> opts[i].Some?) ==>
      |ps| == |opts| && forall k :: 0 <= k < |ps| ==> ps[k] == k
    ensures forall x :: x in xs <==> Some(x) in opts
    ensures (forall i :: 0 <= i < |opts| ==> opts[i].Some?) ==>
      |xs| == |opts| && forall i :: 0 <= i < |opts| ==> Some(xs[i]) == opts[i]
  {
    forall x | x in xs ensures Some(x) in opts {
      var k :| 0 <= k < |xs| && xs[k] == x;
      assert opts[ps[k]] == Some(x);
    }
    forall x | Some(x) in opts ensures x in xs {
      var i :| 0 <= i < |opts| && opts[i] == Some(x);
      var k :| 0 <= k < |ps| && ps[k] == i;
      assert xs[k] == x;
    }
  }

  /** `entries[k]` is the entry `max_by` keeps: no entry has a later date, and
      every entry after it has an earlier one. */
  predicate IsLastMax(entries: seq<Entry>, k: int) {
    && 0 <= k < |entries|
    && forall j :: 0 <= j < |entries| ==>
         && !Before(entries[k].date, entries[j].date)
         && (k < j ==> Before(entries[j].date, entries[k].date))
  }

  /** `Iterator::max_by` comparing dates only: on equal dates the later
      element replaces the one kept so far. */
  function Select(entries: seq<Entry>): (r: Option<Entry>)
    ensures r.None? <==> |entries| == 0
    ensures r.Some? ==> exists k :: IsLastMax(entries, k) && entries[k] == r.value
  {
    if |entries| == 0 then None
    else
      var init := entries[..|entries| - 1];
      var e := entries[|entries| - 1];
      var best := Select(init);
      if best.Some? && Compare(best.value.date, e.date) == Greater then
        KeepBest(entries, best.value);
        best
      else
        TakeLast(entries, best);
        Some(e)
  }

  lemma KeepBest(entries: seq<Entry>, b: Entry)
    requires |entries| > 0
    requires exists k :: IsLastMax(entries[..|entries| - 1], k) && entries[k] == b
    requires Before(entries[|entries| - 1].date, b.date)
    ensures exists k :: IsLastMax(entries, k) && entries[k] == b
  {
    var k :| IsLastMax(entries[..|entries| - 1], k) && entries[k] == b;
    assert IsLastMax(entries, k);
  }

  lemma TakeLast(entries: seq<Entry>, best: Option<Entry>)
    requires |entries| > 0
    requires best.None? ==> |entries| == 1
    requires best.Some? ==> exists k :: IsLastMax(entries[..|entries| - 1], k) && entries[k] == best.value
    requires best.Some? ==> !Before(entries[|entries| - 1].date, best.value.date)
    ensures IsLastMax(entries, |entries| - 1)
  {
    if best.Some? {
      var k :| IsLastMax(entries[..|entries| - 1], k) && entries[k] == best.value;
      assert IsLastMax(entries, |entries| - 1);
    }
  }

  /** At most one position is the one `max_by` keeps. */
  lemma {:induction false} LastMaxUnique(entries: seq<Entry>, k: int, k': int)
    requires IsLastMax(entries, k) && IsLastMax(entries, k')
    ensures k == k'
  {
    assert !Before(entries[k].date, entries[k'].date);
    assert !Before(entries[k'].date, entries[k].date);
  }

  /** The decision on the kept entry: a date after today is an error, today's
      date gives that entry's index, an earlier date or no entry gives none. */
  function Latest(entries: seq<Entry>, today: Date): (r: Result<Option<nat>, ScanError>)
    ensures r.Err? <==> exists j :: 0 <= j < |entries| && Before(today, entries[j].date)
    ensures r.Err? ==> Before(today, r.error.found)
    ensures r.Err? ==> exists k :: IsLastMax(entries, k) && entries[k].date == r.error.found
    ensures r == Ok(None) <==> forall j :: 0 <= j < |entries| ==> Before(entries[j].date, today)
    ensures r.Ok? && r.value.Some? ==>
      exists k :: IsLastMax(entries, k) && entries[k] == Entry(today, r.value.value)
  {
    match Select(entries)
    case None => Ok(None)
    case Some(e) =>
      if Compare(e.date, today) == Greater then Err(FutureDate(e.date))
      else if Compare(e.date, today) == Equal then Ok(Some(e.index))
      else Ok(None)
  }

  /** `find_last_file_for_current_day` over the names the glob yields. A
      reported index is that of the last enumerated name dated today: every
      accepted name after it is dated earlier. */
  function FindLastFileForCurrentDay(names: seq<string>, today: Date): (r: Result<Option<nat>, ScanError>)
    ensures r.Err? <==> exists i :: 0 <= i < |names| && Accept(names[i]).Some? && Before(today, Accept(names[i]).value.date)
    ensures r.Err? ==> Before(today, r.error.found)
    ensures r == Ok(None) <==> forall i :: 0 <= i < |names| && Accept(names[i]).Some? ==> Before(Accept(names[i]).value.date, today)
    ensures r.Ok? && r.value.Some? ==> r.value.value < 100 && exists i :: IsLastOfToday(names, today, i, r.value.value)
  {
    LatestOverNames(names, today);
    Latest(FilterAccepted(names), today)
  }

  /** A scan error reports the latest accepted date: some accepted name
      carries it, and no accepted name is dated later. */
  lemma ScanErrorIsLatestDate(names: seq<string>, today: Date)
    ensures var r := FindLastFileForCurrentDay(names, today);
      r.Err? ==>
        && (exists i :: 0 <= i < |names| && Accept(names[i]).Some? && Accept(names[i]).value.date == r.error.found)
        && forall i :: 0 <= i < |names| && Accept(names[i]).Some? ==> !Before(r.error.found, Accept(names[i]).value.date)
  {
    if FindLastFileForCurrentDay(names, today).Err? {
      var es := FilterAccepted(names);
      FilterAcceptedMembers(names);
      assert FindLastFileForCurrentDay(names, today) == Latest(es, today);
      var k :| IsLastMax(es, k) && es[k].date == Latest(es, today).error.found;
      assert es[k] in es;
      forall i | 0 <= i < |names| && Accept(names[i]).Some?
        ensures !Before(es[k].date, Accept(names[i]).value.date)
      {
        assert Accept(names[i]).value in es;
      }
    }
  }

  /** `names[i]` is accepted as today's file `index`, and every accepted name
      enumerated after it is dated before today. */
  predicate IsLastOfToday(names: seq<string>, today: Date, i: int, index: nat) {
    && 0 <= i < |names|
    && Accept(names[i]) == Some(Entry(today, index))
    && forall j :: i < j < |names| && Accept(names[j]).Some? ==> Before(Accept(names[j]).value.date, today)
  }

  lemma LatestOverNames(names: seq<string>, today: Date)
    ensures var r := Latest(FilterAccepted(names), today);
      && (r.Err? <==> exists i :: 0 <= i < |names| && Accept(names[i]).Some? && Before(today, Accept(names[i]).value.date))
      && (r == Ok(None) <==> forall i :: 0 <= i < |names| && Accept(names[i]).Some? ==> Before(Accept(names[i]).value.date, today))
      && (r.Ok? && r.value.Some? ==> r.value.value < 100 && exists i :: IsLastOfToday(names, today, i, r.value.value))
  {
    FutureOverNames(names, today);
    PastOverNames(names, today);
    var r := Latest(FilterAccepted(names), today);
    if r.Ok? && r.value.Some? {
      KeptIsLastOfToday(names, today);
    }
  }

  lemma FutureOverNames(names: seq<string>, today: Date)
    ensures Latest(FilterAccepted(names), today).Err? <==>
      exists i :: 0 <= i < |names| && Accept(names[i]).Some? && Before(today, Accept(names[i]).value.date)
  {
    var es := FilterAccepted(names);
    FilterAcceptedMembers(names);
    assert forall j :: 0 <= j < |es| ==> es[j] in es;
  }

  lemma PastOverNames(names: seq<string>, today: Date)
    ensures Latest(FilterAccepted(names), today) == Ok(None) <==>
      forall i :: 0 <= i < |names| && Accept(names[i]).Some? ==> Before(Accept(names[i]).value.date, today)
  {
    var es := FilterAccepted(names);
    FilterAcceptedMembers(names);
    assert forall j :: 0 <= j < |es| ==> es[j] in es;
  }

  lemma KeptIsLastOfToday(names: seq<string>, today: Date)
    requires Latest(FilterAccepted(names), today).Ok? && Latest(FilterAccepted(names), today).value.Some?
    ensures exists i :: IsLastOfToday(names, today, i, Latest(FilterAccepted(names), today).value.value)
  {
    var opts := Scan(names);
    var n := Latest(Somes(opts), today).value.value;
    var i := KeptPosition(opts, today);
    assert forall j :: 0 <= j < |names| ==> Accept(names[j]) == opts[j];
    assert IsLastOfToday(names, today, i, n);
  }

  /** The position of the value `max_by` keeps among the options, when it is
      dated today: every present value after it is dated earlier. */
  lemma KeptPosition(opts: seq<Option<Entry>>, today: Date) returns (i: nat)
    requires Latest(Somes(opts), today).Ok? && Latest(Somes(opts), today).value.Some?
    ensures i < |opts| && opts[i] == Some(Entry(today, Latest(Somes(opts), today).value.value))
    ensures forall j :: i < j < |opts| && opts[j].Some? ==> Before(opts[j].value.date, today)
  {
    var es, ps := Somes(opts), SomePositions(opts);
    SomePositionsInOrder(opts);
    PositionsRead(opts);
    var k :| IsLastMax(es, k) && es[k] == Entry(today, Latest(es, today).value.value);
    LaterPresentAreEarlier(opts, es, ps, k);
    i := ps[k];
  }

  /** When `es` lists the present values of `opts` in order at positions
      `ps`, every present value after the one `max_by` keeps is dated
      earlier. */
  lemma LaterPresentAreEarlier(opts: seq<Option<Entry>>, es: seq<Entry>, ps: seq<nat>, k: int)
    requires |ps| == |es|
    requires forall l :: 0 <= l < |ps| ==> ps[l] < |opts| && opts[ps[l]] == Some(es[l])
    requires forall l, m :: 0 <= l < m < |ps| ==> ps[l] < ps[m]
    requires forall j :: 0 <= j < |opts| && opts[j].Some? ==> j in ps
    requires IsLastMax(es, k)
    ensures forall j :: ps[k] < j < |opts| && opts[j].Some? ==> Before(opts[j].value.date, es[k].date)
  {
    forall j | ps[k] < j < |opts| && opts[j].Some?
      ensures Before(opts[j].value.date, es[k].date)
    {
      var l :| 0 <= l < |ps| && ps[l] == j;
      assert k < l;
    }
  }

  /** `Somes` reads `opts` at `SomePositions`. */
  lemma PositionsRead(opts: seq<Option<Entry>>)
    ensures |SomePositions(opts)| == |Somes(opts)|
    ensures forall k :: 0 <= k < |Somes(opts)| ==> opts[SomePositions(opts)[k]] == Some(Somes(opts)[k])
  {
  }

  /** Each day's entries appear in ascending index order, as they do when a
      single directory is listed in name order. */
  predicate IndicesAscendWithinDay(entries: seq<Entry>) {
    forall i, j :: 0 <= i < j < |entries| && entries[i].date == entries[j].date ==>
      entries[i].index <= entries[j].index
  }

  /** When each day's indices ascend in enumeration order, the kept entry has
      the largest index of its day; without that order `max_by` may keep a
      smaller one. */
  lemma {:induction false} AscendingIndicesGiveDayMaximum(entries: seq<Entry>, k: int)
    requires IndicesAscendWithinDay(entries) && IsLastMax(entries, k)
    ensures forall j :: 0 <= j < |entries| && entries[j].date == entries[k].date ==>
      entries[j].index <= entries[k].index
  {
    forall j | 0 <= j < |entries| && entries[j].date == entries[k].date
      ensures entries[j].index <= entries[k].index
    {
      assert !Before(entries[j].date, entries[k].date);
      assert j <= k;
    }
  }
}

=== FILE: wrappers.dfy ===
/** Failure-carrying datatypes shared by the model: Rust's `Option` and `anyhow::Result`. */
module Wrappers {

  /** Rust's `Option<T>`. */
  datatype Option<+T> = None | Some(value: T)

  /** Rust's `Result<T, E>`; the tool only ever propagates errors to the top level. */
  datatype Result<+T, +E> = Ok(value: T) | Err(error: E)
}
